=== FILE: README.md ===
# links-reducer: slug allocation and link store

A Dafny model of the core of a URL shortener. The service takes a long URL,
hands out a short slug, stores the mapping, and resolves the slug back, both as
JSON and as an HTML redirect page with Open Graph preview tags.

`server.js` holds two servers written one after the other:

- the first (lines 1-211) uses a SQLite table `links(slug PRIMARY KEY, longUrl, imageUrl, createdAt)`
  and 6-hex-digit random slugs; it serves a `GET /:slug` redirect page;
- the second (lines 213-356) uses better-sqlite3 with `links(id, slug UNIQUE, long_url, created_at)`,
  defaults the long URL's scheme and validates the URL, and draws 8-character base-36 random slugs.

As one file, the second half re-declares `const express`, `app` and `db`. A
JavaScript engine rejects that at parse time, so the model treats the halves
as two independent servers: `ServerV1` and `ServerV2`.

Layout, leaf first:

- `optional.dfy` (`Optional`): `Option`, `Result`, and JavaScript truthiness of a string-or-nothing (`x || null`, `x || ''`).
- `text.dfy` (`Text`): `trim`, `toLowerCase` and `startsWith` on ASCII.
- `slugs.dfy` (`Slugs`): the slug charset, the `[^a-z0-9-]` filter and the `-+` collapse. Also both servers' normalisations, with idempotence on non-empty results, and a one-pass reference (`LowerSlugChars`, `AsciiAlnumLower`) they are proved against.
- `generators.dfy` (`Generators`): the shape of random slugs. A hex round trip and base-36 injectivity show that distinct draws give distinct slugs.
- `link_store.dfy` (`LinkStore`): the table as an immutable map with a duplicate-key-failing `Insert`.
- `allocation.dfy` (`Allocation`): the retry loops as a search over a supplied candidate sequence. Covers `ensureUniqueSlug` and the second server's do/while loop.
- `urls.dfy` (`Urls`): scheme defaulting.
- `redirect_page.dfy` (`RedirectPage`): the `/:slug` route, with the HTML page as a list of tags.
- `api.dfy` (`Api`): the request body and the failure replies.
- `sessions.dfy` (`Sessions`): sequences of creates. Shows that slugs handed out are pairwise distinct and that rows are never rewritten.
- `server_v1.dfy`, `server_v2.dfy`: the handlers. Each create handler is split into `PlanCreate` and `Commit`:
  - `PlanCreate` validates, normalises and picks a slug, reading the store;
  - `Commit` inserts into whatever the store holds by then.

  `CreateLink` runs both against the same store. The existence-check/insert race shows up as `Commit` meeting a duplicate key.

Randomness is a parameter. A draw is the raw randomness behind one generated slug:

- for the first server, 3 bytes;
- for the second, 8 picks in `[0, 36)`.

A request carries the sequence of draws its loop will consume. When every draw
collides, the model answers `NoFreeDraw`. The servers would keep drawing
instead: the first recursively, the second in `do { } while (true)`. `Date.now()`
and the database default timestamp become a `now` parameter. `new URL(...)`
becomes an opaque `validUrl` predicate.

Behaviours of the code that a reader might not expect, all modelled as written:

- A taken custom slug is silently replaced by a random one in the first server (server.js:64-66).
  Only the second server rejects it (server.js:288-291).
- The first server stores `longUrl` exactly as sent: no trimming, no scheme defaulting, no URL validation.
  Its create reply carries `slug` and `imageUrl` but no `longUrl`.
- In the first server a lost insert race answers 500 (`DbError`). In the second it answers the same 400 as a taken custom slug.
- Neither normalisation is idempotent on a slug that cleans to nothing: `"!"` gives `""`, and `""` then gives null (server.js:55, 284).
- Scheme detection is case-sensitive: `HTTP://x` becomes `https://HTTP://x`.

## Model

| member | source | states |
|---|---|---|
| Optional.OrNull | server.js:136 | the or-null expression (`normalizeSlug(slug)` or null) is truthy exactly when its operand is, keeps a truthy operand, and is otherwise `null` |
| Optional.OrEmpty | server.js:184 | the or-empty expression (`row.imageUrl` or the empty string) is non-empty exactly when its operand is truthy, and is then the operand |
| Text.Trim | server.js:56 | `trim` (also at server.js:272) leaves no whitespace at either end and never lengthens; with `TrimIsInfix` it removes exactly the leading and trailing whitespace |
| Text.StartsWithMeansPrefix | server.js:273 | `startsWith(p)` holds exactly when the string is `p` followed by something |
| Text.TrimIsInfix | server.js:56 | `trim` removes only a whitespace prefix and a whitespace suffix; the middle is an unchanged infix of the input |
| Text.Lower | server.js:56 | `toLowerCase` keeps the length, maps each of `A`-`Z` to the letter at the same place in `a`-`z`, and leaves every other character in place |
| Slugs.KeepSlugChars | server.js:56 | the `[^a-z0-9-]` deletion leaves only slug characters, each taken from the input, never lengthens, and is the identity on slug-only strings |
| Slugs.KeepSlugCharsOfChar | server.js:56 | on one character the deletion keeps it exactly when it is in `[a-z0-9-]` |
| Slugs.KeepSlugCharsAppend | server.js:56 | the deletion distributes over concatenation, so it keeps exactly the slug characters in their order |
| Slugs.CollapseDashes | server.js:56 | after `replace(/-+/g, '-')` no two `-` are adjacent, the last character is kept, the charset is kept, and strings without `--` are unchanged |
| Slugs.CollapseKeepsNonDashes | server.js:56 | collapsing removes only dashes: with dashes erased, input and output are equal |
| Slugs.CollapseDashesUnfold | server.js:56 | reading left to right, a character is dropped exactly when it is a `-` right after a `-` |
| Slugs.CollapseIgnoresRepeatedDash | server.js:56 | one more `-` in a run of dashes never changes the result; with the no-`--` fixed point this makes every run of `-` a single `-` |
| Slugs.CleanSlug | server.js:284 | `trim().toLowerCase().replace(/[^a-z0-9-]/g, '')` leaves only slug characters and equals the one-pass reference `LowerSlugChars` |
| Slugs.CleanSlugFixesSlugStrings | server.js:284 | trim, lower-case and filter leave a string over `[a-z0-9-]` unchanged |
| Slugs.NormalizeSlug | server.js:54-57 | `normalizeSlug` is `null` exactly for a falsy argument; otherwise it is over `[a-z0-9-]` with no `--` |
| Slugs.NormalizeSlugIdempotent | server.js:54-57 | normalising a non-empty normalised slug returns it unchanged, and so does the candidate after the or-null step |
| Slugs.InlineSlug | server.js:284 | the second server's inline normalisation is `null` exactly for a falsy slug and otherwise over `[a-z0-9-]` |
| Slugs.InlineSlugIdempotent | server.js:284 | re-normalising a non-empty result returns it unchanged, and so does the candidate after the or-null step |
| Slugs.EmptyCleaningIsNotFixed | server.js:284 | a truthy slug that cleans to nothing normalises to `""` in both servers (the first server's `normalizeSlug`, server.js:55-56, too), and normalising that `""` again gives null |
| Slugs.CustomSlugV1 | server.js:136 | after the or-null step the candidate is absent exactly when the slug is falsy or cleans to "", and is otherwise a non-empty normal slug |
| Slugs.CustomSlugV2 | server.js:284-286 | the second server takes the custom branch exactly when the slug is truthy and does not clean to "" |
| Slugs.NormalizationsAgreeWithoutDoubleDash | server.js:284 | both normalisations are defined for the same inputs, agree when the cleaned slug has no `--`, and always agree once dashes are erased |
| Slugs.KeepLowerIsLowerSlugChars | server.js:56 | lower-casing then deleting non-slug characters equals the one-pass reference that keeps each lower-cased character in `[a-z0-9-]` |
| Slugs.LowerSlugCharsIgnoresTrim | server.js:56 | trimming first does not change the result, since the trimmed whitespace would be deleted anyway |
| Slugs.DashlessLowerSlugChars | server.js:56 | with dashes erased, the reference is the input's ASCII letters and digits, lower-cased, in order |
| Slugs.NormalizationsMatchReference | server.js:284 | for a truthy slug the second server's normalisation is the one-pass reference and the first server's is its dash collapse; with dashes erased both are the input's lower-cased ASCII letters and digits |
| Slugs.NormalSlugIsFixed | server.js:54-57 | a non-empty slug over `[a-z0-9-]` without `--` is its own normalised candidate |
| Slugs.StoredSlugIsFixed | server.js:284 | a non-empty slug over `[a-z0-9-]` is its own inline-normalised candidate |
| Slugs.StoredSlugHasNoDot | server.js:174 | a stored slug has no `.`, so the page route never skips it |
| Generators.HexEncode | server.js:51 | `toString('hex')` writes two lower-case hex digits per byte |
| Generators.HexRoundTrip | server.js:51 | hex decoding inverts hex encoding |
| Generators.HexSlug | server.js:50-52 | `generateSlug` yields 6 hex characters, a valid slug without dashes |
| Generators.HexSlugInjective | server.js:51 | two draws give the same hex slug exactly when they are equal |
| Generators.Base36Slug | server.js:294-299 | the generation loop yields 8 characters of `[a-z0-9]`, each decoding back to its pick |
| Generators.Base36SlugInjective | server.js:294-299 | two draws give the same base-36 slug exactly when they are equal |
| Generators.HexSlugIsNormal | server.js:50-57 | a generated hex slug is already a normalised first-server slug |
| Generators.Base36SlugIsNormal | server.js:294-299 | a generated base-36 slug is already a normalised second-server slug |
| LinkStore.Get | server.js:62 | the `SELECT ... WHERE slug = ?` finds a row exactly for a stored slug, and returns that slug's row |
| LinkStore.Insert | server.js:39-46 | insert fails exactly on a present key; otherwise the new key maps to the row, exactly one key is added, and no row changes |
| LinkStore.FirstInsertWins | server.js:41 | after a successful insert, a second insert of the slug fails and the first row stays |
| LinkStore.InsertIsolated | server.js:251 | inserting one slug leaves every other slug's lookup unchanged |
| Allocation.FirstFreeIndex | server.js:59-74 | the search stops at the first candidate the store lacks; all before it are taken |
| Allocation.FirstFree | server.js:59-74 | the result is the first candidate the store lacks, every earlier one being taken; none only when every candidate is taken |
| Allocation.FindFree | server.js:61-72 | the lookup loop reports the collisions it met and returns the first free candidate, agreeing with `FirstFree` |
| Allocation.FirstFreeAfterHead | server.js:61-70 | a free first candidate is taken, and a taken one is skipped for the search over the rest |
| Allocation.EnsureUniqueSlug | server.js:59-74 | `ensureUniqueSlug` returns a slug absent from the store. A free proposed slug comes back unchanged. A taken or falsy one is replaced by the first free generated 6-character slug |
| Allocation.RandomSlugV2 | server.js:292-303 | the random branch returns the slug of the first draw that does not collide, a free 8-character slug; it finds none only when every draw collides |
| Urls.DefaultScheme | server.js:272-275 | the result starts with `http://` or `https://`; a trimmed input with a scheme is kept; otherwise the trimmed input gets `https://` in front |
| Urls.DefaultSchemeIdempotent | server.js:272-275 | defaulting twice equals defaulting once |
| Urls.DefaultSchemePrepends | server.js:272-275 | a trimmed URL without a scheme gets exactly `https://` in front |
| Urls.DefaultSchemeExample | server.js:272-275 | `example.com/x` becomes `https://` followed by `example.com/x` |
| RedirectPage.Render | server.js:183-202 | the page has an `og:image` tag iff the image URL is non-empty, with that URL as content. Every redirect target is the long URL, and there is both a meta refresh and a script redirect |
| RedirectPage.ServePage | server.js:171-207 | an empty or dotted segment passes through. Otherwise an absent slug is a 404. A present slug gives a page whose refresh, script redirect and link all go to its long URL, and whose `og:image` tag is present iff its image URL is truthy and then carries that URL |
| RedirectPage.DottedPathsIgnoreStore | server.js:174 | a segment with `.` passes through whatever the store holds |
| ServerV1.PlanCreate | server.js:131-137 | a missing `longUrl` is rejected. Otherwise planning succeeds exactly when `ensureUniqueSlug` of the normalised custom slug finds a slug, and takes that slug. The planned slug is free and valid, and the row holds the sent `longUrl`, `imageUrl` (or null when falsy) and `now`. A free custom slug is used; any other slug is a generated hex slug |
| ServerV1.Commit | server.js:139-150 | the insert succeeds exactly when the slug is not yet stored, adding the planned row; otherwise it answers `DbError` and changes nothing |
| ServerV1.CreateLink | server.js:131-155 | a create with `longUrl` either succeeds or runs out of draws, never 500. A success stores the row under a new valid slug and touches no other row. Failures leave the store unchanged, and well-formed stores stay well-formed |
| ServerV1.FreeCustomSlugIsUsed | server.js:136-137 | a free custom slug is used as normalised |
| ServerV1.TakenCustomSlugIsReplaced | server.js:64-66 | a taken custom slug is silently replaced by the first free drawn 6-character slug, and the existing row is untouched |
| ServerV1.MissingCustomSlugDraws | server.js:136-137 | with no usable custom slug, the first free generated slug is taken |
| ServerV1.RaceLosesWithDbError | server.js:143-147 | if another writer stores the planned slug first, the insert answers 500 and writes nothing |
| ServerV1.GetLink | server.js:158-168 | the API lookup finds exactly the stored slugs, returning `longUrl` and `imageUrl`, or null when it is falsy; otherwise 404 |
| ServerV1.CreateThenGet | server.js:140-166 | after a create, the lookup of its slug returns the sent `longUrl` and `imageUrl`, or null when it is falsy |
| ServerV1.CreateThenPage | server.js:176-196 | after a create, its page refreshes and script-redirects to the long URL and has `og:image` iff the request's image URL was non-empty |
| ServerV1.AbsentSlugNotFound | server.js:165-181 | an absent slug is a 404 on the API and on the page route (or passes through if dotted) |
| ServerV1.CreateStepIsSound | server.js:131-155 | one create keeps every row and reports only a slug it newly stored |
| ServerV1.CreateAll | server.js:131-155 | step `i` is the create of call `i` against the store the previous step left; each keeps every earlier row and reports only a slug it newly stored |
| ServerV1.CreatedSlugsUnique | server.js:41 | successive creates hand out pairwise distinct slugs and never rewrite an earlier row |
| ServerV2.ShortUrl | server.js:311 | the short URL is the origin, then exactly `/#`, then the slug, and nothing else |
| ServerV2.PlanCreate | server.js:263-303 | missing `longUrl`, then invalid URL after scheme defaulting, then taken custom slug are rejected in that order. A free custom slug is used. Without one, the first non-colliding 8-character random slug is drawn, and drawing fails only when every draw collides |
| ServerV2.Commit | server.js:305-319 | the insert succeeds exactly when the slug is not yet stored, adding the row with the processed URL; otherwise it answers the conflict reply and changes nothing |
| ServerV2.CreateLink | server.js:263-324 | the create succeeds exactly when planning does, with the planned slug, and otherwise fails with the planning error. A success stores the defaulted URL under a new valid slug and returns it with the `#` short URL. Failures leave the store unchanged, and well-formed stores, with every URL schemed, stay well-formed |
| ServerV2.AddRowKeepsWellFormed | server.js:249-255 | adding a row with a valid slug and a schemed URL keeps the store well-formed |
| ServerV2.ConflictOnReuse | server.js:286-291 | a second create whose custom slug normalises to an already created slug gets the conflict reply, and the first URL stays |
| ServerV2.RaceLosesWithConflict | server.js:314-317 | if another process sharing the database stores the planned slug first, the UNIQUE violation answers the conflict reply and writes nothing |
| ServerV2.GetLink | server.js:327-345 | the API lookup finds exactly the stored slugs and returns the stored URL; otherwise 404 |
| ServerV2.CreateThenGet | server.js:307-339 | after a create, the lookup of its slug returns the scheme-defaulted URL |
| ServerV2.CreateStepIsSound | server.js:263-324 | one create keeps every row and reports only a slug it newly stored |
| ServerV2.CreateAll | server.js:263-324 | step `i` is the create of call `i` against the store the previous step left; each keeps every earlier row and reports only a slug it newly stored |
| ServerV2.CreatedSlugsUnique | server.js:251 | successive creates hand out pairwise distinct slugs and never rewrite an earlier row |
| Sessions.ReplaysCons | server.js:131-155 | serving the first call and then replaying the rest from the store it left replays the whole sequence |
| Sessions.ConsStep | server.js:41 | a sound step followed by a sound run from where it ended is a sound run |
| Sessions.ExtendsAlong | server.js:41 | rows present before one step are unchanged after any later step |
| Sessions.CreatedSlugsDistinct | server.js:41 | in a chained run of sound steps, no two steps report the same slug |

## Left out

- Image upload (Cloudinary, multer, the local `uploads` directory, server.js:14-26, 83-128): remote and file I/O. The core only consumes the resulting URL string.
- Express wiring, body parsing, static serving, CORS (whose origin callback allows every origin), `app.listen`, and `GET /` sending `index.html`: framework glue.
- SQLite specifics: connections, `CREATE TABLE`, prepared statements, the second table's `id` column, and every store failure other than a duplicate key. The store is a map that cannot fail, so the 500 replies for I/O errors are not reachable in the model.
- The random sources (`crypto.randomBytes`, `Math.random`) are supplied draws. The unbounded retry becomes the `NoFreeDraw` answer once the draws run out.
- `new URL(...)` (the WHATWG URL Standard parser) is the opaque `validUrl` parameter.
- `Date.now()` and `CURRENT_TIMESTAMP` are the `now` parameter. The second table's `created_at` is a text datetime, modelled as the same integer.
- The HTML text, its escaping and `JSON.stringify`: the page is a list of tags.
- Concurrency: requests are sequential. The check/insert race is modelled only as `Commit` running against a store that already holds the slug.
- Unicode behaviour of `trim` and `toLowerCase`. Only ASCII whitespace (space, tab, LF, VT, FF, CR) and ASCII case mapping are modelled. For example, JavaScript lower-cases the Kelvin sign to `k`, which the filter would then keep.
- Non-string JSON fields (a numeric `slug` or `longUrl`): the request fields are strings or absent. In the first server a non-string `slug` goes through `String(...)` (server.js:56), while `longUrl` and `imageUrl` go to the INSERT unchanged (server.js:142) and come back as stored (server.js:166). In the second server a truthy non-string `longUrl` or `slug` throws at `trim` (server.js:272, 284), a 500; a falsy one is a 400 or the random branch like an absent field, and `imageUrl` is never read.

=== FILE: allocation.dfy ===
/**
 * Slug allocation: the retry loops that keep drawing candidates until one is
 * not in the store. A candidate sequence replaces the random source, so the
 * loop becomes a linear search; when the sequence runs out before a free
 * candidate turns up the result is `None` (the servers would keep looping).
 */
module Allocation {
  import opened Optional
  import opened Slugs
  import opened Generators
  import opened LinkStore

  /** Index of the first candidate absent from the store, or `|cands|` if there is none. */
  function FirstFreeIndex(st: Store, cands: seq<string>): (k: nat)
    ensures k <= |cands|
    ensures forall j :: 0 <= j < k ==> Exists(st, cands[j])
    ensures k < |cands| ==> !Exists(st, cands[k])
  {
    if |cands| == 0 then 0
    else if !Exists(st, cands[0]) then 0
    else 1 + FirstFreeIndex(st, cands[1..])
  }

  /** The first candidate absent from the store. */
  function FirstFree(st: Store, cands: seq<string>): (r: Option<string>)
    ensures r.Some? ==> r.value in cands && !Exists(st, r.value)
    ensures r.None? <==> forall j :: 0 <= j < |cands| ==> Exists(st, cands[j])
    ensures |cands| > 0 && !Exists(st, cands[0]) ==> r == Some(cands[0])
    ensures r.Some? ==> exists k :: 0 <= k < |cands| && r.value == cands[k] &&
                                    (forall j :: 0 <= j < k ==> Exists(st, cands[j]))
  {
    var k := FirstFreeIndex(st, cands);
    if k < |cands| then Some(cands[k]) else None
  }

  /**
   * The retry loop itself: look each candidate up in turn and stop at the first
   * one the store does not hold. `k` is the number of collisions met on the way.
   */
  method FindFree(st: Store, cands: seq<string>) returns (r: Option<string>, k: nat)
    ensures k <= |cands|
    ensures forall j :: 0 <= j < k ==> Exists(st, cands[j])
    ensures k < |cands| ==> r == Some(cands[k]) && !Exists(st, cands[k])
    ensures k == |cands| ==> r.None?
    ensures r == FirstFree(st, cands)
  {
    k := 0;
    while k < |cands|
      invariant k <= |cands|
      invariant forall j :: 0 <= j < k ==> Exists(st, cands[j])
    {
      if !Exists(st, cands[k]) {
        return Some(cands[k]), k;
      }
      k := k + 1;
    }
    return None, k;
  }

  /** The slugs the first server's `generateSlug` yields for successive draws. */
  function HexSlugs(draws: seq<HexDraw>): (r: seq<string>)
    ensures |r| == |draws|
    ensures forall i :: 0 <= i < |r| ==> r[i] == HexSlug(draws[i])
  {
    seq(|draws|, i requires 0 <= i < |draws| => HexSlug(draws[i]))
  }

  /** The slugs the second server's generation loop yields for successive draws. */
  function Base36Slugs(draws: seq<Base36Draw>): (r: seq<string>)
    ensures |r| == |draws|
    ensures forall i :: 0 <= i < |r| ==> r[i] == Base36Slug(draws[i])
  {
    seq(|draws|, i requires 0 <= i < |draws| => Base36Slug(draws[i]))
  }

  /**
   * `ensureUniqueSlug(proposed)` of the first server: the proposed slug (or a
   * fresh draw when it is falsy) is tried first and every collision, the
   * proposed slug's included, is replaced by a new random slug.
   */
  function EnsureUniqueSlug(st: Store, proposed: Option<string>, draws: seq<HexDraw>): (r: Option<string>)
    ensures r.Some? ==> !Exists(st, r.value)
    ensures Truthy(proposed) && !Exists(st, proposed.value) ==> r == proposed
    ensures Truthy(proposed) && Exists(st, proposed.value) ==> r == FirstFree(st, HexSlugs(draws))
    ensures !Truthy(proposed) ==> r == FirstFree(st, HexSlugs(draws))
    ensures r.Some? && r != proposed ==> |r.value| == 6 && r.value in HexSlugs(draws)
  {
    var hex := HexSlugs(draws);
    if Truthy(proposed) then
      FirstFreeAfterHead(st, proposed.value, hex);
      FirstFree(st, [proposed.value] + hex)
    else
      FirstFree(st, hex)
  }

  /** The search takes a free head, and moves past a taken one. */
  lemma FirstFreeAfterHead(st: Store, c: string, rest: seq<string>)
    ensures FirstFree(st, [c] + rest) == if Exists(st, c) then FirstFree(st, rest) else Some(c)
  {
    assert ([c] + rest)[1..] == rest;
  }

  /** The random branch of the second server: a fresh eight-character slug not yet stored. */
  function RandomSlugV2(st: Store, draws: seq<Base36Draw>): (r: Option<string>)
    ensures r.Some? ==> !Exists(st, r.value) && |r.value| == 8 && IsStoredSlug(r.value)
    ensures r.None? <==> forall i :: 0 <= i < |draws| ==> Exists(st, Base36Slug(draws[i]))
    ensures r.Some? ==> exists k :: 0 <= k < |draws| && r.value == Base36Slug(draws[k]) &&
                                    (forall j :: 0 <= j < k ==> Exists(st, Base36Slug(draws[j])))
  {
    var cands := Base36Slugs(draws);
    var k := FirstFreeIndex(st, cands);
    assert k < |cands| ==> FirstFree(st, cands) == Some(Base36Slug(draws[k]));
    FirstFree(st, cands)
  }
}

=== FILE: api.dfy ===
/** The request body and the error replies shared by both servers' HTTP handlers. */
module Api {
  import opened Optional

  /** JSON body of `POST /api/links`; a missing field is `None`; non-string JSON values are not modelled. */
  datatype CreateRequest = CreateRequest(longUrl: Option<string>, slug: Option<string>, imageUrl: Option<string>)

  datatype Failure =
    | LongUrlRequired   // 400, no `longUrl`
    | InvalidLongUrl    // 400, `new URL(...)` threw
    | SlugInUse         // 400, the custom slug is taken
    | NotFound          // 404
    | DbError           // 500
    | NoFreeDraw        // the supplied draws ran out; the server would keep drawing
}

=== FILE: generators.dfy ===
/**
 * Shapes of the randomly generated slugs. The random source itself is not
 * modelled: a draw is the raw randomness one generation consumes.
 *  - first server: `crypto.randomBytes(3).toString('hex')`, six lower-case hex digits;
 *  - second server: eight characters picked from `abcdefghijklmnopqrstuvwxyz0123456789`
 *    by `Math.floor(Math.random() * 36)`.
 */
module Generators {
  import opened Optional
  import opened Slugs

  type Byte = b: int | 0 <= b < 256

  /** The three random bytes behind one first-server slug. */
  type HexDraw = d: seq<Byte> | |d| == 3 witness [0, 0, 0]

  /** One value of `Math.floor(Math.random() * 36)`. */
  type Digit36 = d: int | 0 <= d < 36

  /** The eight picks behind one second-server slug. */
  type Base36Draw = d: seq<Digit36> | |d| == 8 witness [0, 0, 0, 0, 0, 0, 0, 0]

  predicate IsHexChar(c: char) {
    '0' <= c <= '9' || 'a' <= c <= 'f'
  }

  /** Lower-case hex digit of a nibble, as Node's 'hex' encoding writes it. */
  function HexChar(n: int): (c: char)
    requires 0 <= n < 16
    ensures IsHexChar(c)
  {
    if n < 10 then ('0' as int + n) as char else ('a' as int + n - 10) as char
  }

  function HexValue(c: char): (n: int)
    requires IsHexChar(c)
    ensures 0 <= n < 16
  {
    if c <= '9' then c as int - '0' as int else c as int - 'a' as int + 10
  }

  /** Node's `buf.toString('hex')`: two digits per byte, high nibble first. */
  function HexEncode(bs: seq<Byte>): (r: string)
    ensures |r| == 2 * |bs|
    ensures forall i :: 0 <= i < |r| ==> IsHexChar(r[i])
  {
    if |bs| == 0 then [] else [HexChar(bs[0] / 16), HexChar(bs[0] % 16)] + HexEncode(bs[1..])
  }

  function HexDecode(s: string): Option<seq<Byte>>
    decreases |s|
  {
    if |s| == 0 then Some([])
    else if |s| == 1 || !IsHexChar(s[0]) || !IsHexChar(s[1]) then None
    else match HexDecode(s[2..])
      case None => None
      case Some(rest) => Some([(HexValue(s[0]) * 16 + HexValue(s[1])) as Byte] + rest)
  }

  /** Hex encoding loses nothing: distinct draws give distinct slugs. */
  lemma {:induction false} HexRoundTrip(bs: seq<Byte>)
    ensures HexDecode(HexEncode(bs)) == Some(bs)
  {
    if |bs| > 0 {
      var s := HexEncode(bs);
      assert s[2..] == HexEncode(bs[1..]);
      HexRoundTrip(bs[1..]);
      assert HexValue(s[0]) * 16 + HexValue(s[1]) == bs[0];
      assert [bs[0]] + bs[1..] == bs;
    }
  }

  /** `generateSlug()` of the first server, given the bytes it drew. */
  function HexSlug(d: HexDraw): (r: string)
    ensures |r| == 6
    ensures forall i :: 0 <= i < |r| ==> IsHexChar(r[i])
    ensures IsStoredSlug(r) && NoDoubleDash(r)
  {
    var r := HexEncode(d);
    assert forall i :: 0 <= i < |r| ==> IsSlugChar(r[i]) && r[i] != '-';
    r
  }

  lemma HexSlugInjective(a: HexDraw, b: HexDraw)
    ensures HexSlug(a) == HexSlug(b) <==> a == b
  {
    HexRoundTrip(a);
    HexRoundTrip(b);
  }

  /** `chars.charAt(d)` for `chars = 'abcdefghijklmnopqrstuvwxyz0123456789'`. */
  function Base36Char(d: Digit36): (c: char)
    ensures 'a' <= c <= 'z' || '0' <= c <= '9'
  {
    if d < 26 then ('a' as int + d) as char else ('0' as int + d - 26) as char
  }

  /** Position of an alphabet character in `chars`. */
  function Base36Index(c: char): (d: Digit36)
    requires 'a' <= c <= 'z' || '0' <= c <= '9'
    ensures Base36Char(d) == c
  {
    if 'a' <= c <= 'z' then c as int - 'a' as int else c as int - '0' as int + 26
  }

  /** The generation loop of the second server, given the eight picks it drew. */
  function Base36Slug(d: Base36Draw): (r: string)
    ensures |r| == 8
    ensures IsStoredSlug(r) && '-' !in r
    ensures forall i :: 0 <= i < 8 ==> Base36Index(r[i]) == d[i]
  {
    seq(8, i requires 0 <= i < 8 => Base36Char(d[i]))
  }

  lemma Base36SlugInjective(a: Base36Draw, b: Base36Draw)
    ensures Base36Slug(a) == Base36Slug(b) <==> a == b
  {
    if Base36Slug(a) == Base36Slug(b) {
      assert forall i :: 0 <= i < 8 ==> a[i] == b[i];
    }
  }

  /** The first server's generator already produces normalised slugs. */
  lemma HexSlugIsNormal(h: HexDraw)
    ensures CustomSlugV1(Some(HexSlug(h))) == Some(HexSlug(h))
  {
    NormalSlugIsFixed(HexSlug(h));
  }

  /** The second server's generator already produces normalised slugs. */
  lemma Base36SlugIsNormal(b: Base36Draw)
    ensures CustomSlugV2(Some(Base36Slug(b))) == Some(Base36Slug(b))
  {
    StoredSlugIsFixed(Base36Slug(b));
  }
}

=== FILE: link_store.dfy ===
/**
 * The `links` table as an immutable map keyed by slug. Only the key
 * uniqueness of the table matters: `slug TEXT PRIMARY KEY` in the first
 * server, `slug TEXT UNIQUE NOT NULL` in the second.
 */
module LinkStore {
  import opened Optional

  /** One row. The second server's table has no image column: its rows carry `None`. */
  datatype Link = Link(longUrl: string, imageUrl: Option<string>, createdAt: int)

  datatype Store = Store(links: map<string, Link>)


  /** `SELECT ... FROM links WHERE slug = ?` */
  function Get(st: Store, slug: string): (r: Option<Link>)
    ensures r.Some? <==> slug in st.links
    ensures r.Some? ==> r.value == st.links[slug]
  {
    if slug in st.links then Some(st.links[slug]) else None
  }

  /** The existence pre-check used before inserting. */
  predicate Exists(st: Store, slug: string) {
    Get(st, slug).Some?
  }

  /** Every row of `a` is in `b`, unchanged. */
  predicate Extends(a: Store, b: Store) {
    forall k :: k in a.links ==> k in b.links && b.links[k] == a.links[k]
  }

  lemma ExtendsTransitive(a: Store, b: Store, c: Store)
    requires Extends(a, b) && Extends(b, c)
    ensures Extends(a, c)
  {
  }

  datatype InsertResult = Inserted(store: Store) | DuplicateKey

  /**
   * `INSERT INTO links ...`: fails on a key already present (the caller keeps
   * its store, so nothing changes); otherwise adds exactly one row and
   * touches no other.
   */
  function Insert(st: Store, slug: string, link: Link): (r: InsertResult)
    ensures r.DuplicateKey? <==> Exists(st, slug)
    ensures r.Inserted? ==> Get(r.store, slug) == Some(link)
    ensures r.Inserted? ==> r.store.links.Keys == st.links.Keys + {slug}
    ensures r.Inserted? ==> Extends(st, r.store)
  {
    if slug in st.links then DuplicateKey else Inserted(Store(st.links[slug := link]))
  }

  /** Once a slug has a row, inserting it again fails: the first row wins. */
  lemma FirstInsertWins(st: Store, slug: string, first: Link, second: Link)
    requires Insert(st, slug, first).Inserted?
    ensures var st1 := Insert(st, slug, first).store;
      Insert(st1, slug, second).DuplicateKey? && Get(st1, slug) == Some(first)
  {
  }

  /** Inserting one slug does not change what any other slug resolves to. */
  lemma InsertIsolated(st: Store, slug: string, link: Link, other: string)
    requires Insert(st, slug, link).Inserted? && other != slug
    ensures Get(Insert(st, slug, link).store, other) == Get(st, other)
  {
  }
}

=== FILE: optional.dfy ===
/** Optional values, results, and JavaScript truthiness of optional strings. */
module Optional {

  /** A value that may be absent: `null`/`undefined` on the JavaScript side. */
  datatype Option<+T> = None | Some(value: T)

  /** Either a value or an error. */
  datatype Result<+T, +E> = Ok(value: T) | Err(error: E)

  /** JavaScript truthiness of a string-or-nothing: absent and "" are both falsy. */
  predicate Truthy(o: Option<string>) {
    o.Some? && o.value != ""
  }

  /** The expression `x || null` for a string-or-nothing. */
  function OrNull(o: Option<string>): (r: Option<string>)
    ensures r.None? || Truthy(r)
    ensures Truthy(r) <==> Truthy(o)
    ensures Truthy(o) ==> r == o
  {
    if Truthy(o) then o else None
  }

  /** The expression `x || ''` for a string-or-nothing. */
  function OrEmpty(o: Option<string>): (r: string)
    ensures r != "" <==> Truthy(o)
    ensures Truthy(o) ==> r == o.value
  {
    if Truthy(o) then o.value else ""
  }
}

=== FILE: redirect_page.dfy ===
/**
 * The first server's `GET /:slug` route, with the HTML page abstracted as the
 * list of tags it carries (text and `JSON.stringify` escaping are not modelled).
 */
module RedirectPage {
  import opened Optional
  import opened LinkStore

  datatype OgProperty = OgType | OgTitle | OgDescription | OgImage

  datatype Tag =
    | MetaCharset
    | MetaViewport
    | Title
    | OpenGraph(property: OgProperty, content: string)
    | Refresh(url: string)          // <meta http-equiv="refresh" content="0;url=...">
    | ScriptRedirect(url: string)   // window.location.replace(...)
    | Anchor(href: string)          // <a href="...">...</a>

  /** Where a tag sends the browser, if anywhere. */
  function Target(t: Tag): Option<string> {
    match t
    case Refresh(u) => Some(u)
    case ScriptRedirect(u) => Some(u)
    case Anchor(u) => Some(u)
    case _ => None
  }

  predicate IsOgImage(t: Tag) {
    t.OpenGraph? && t.property == OgImage
  }

  predicate HasOgImage(doc: seq<Tag>) {
    exists i :: 0 <= i < |doc| && IsOgImage(doc[i])
  }

  /**
   * The redirect page for a row: fixed preview metadata, an `og:image` tag
   * only for a non-empty image URL, and three ways of reaching the long URL.
   */
  function Render(longUrl: string, imageUrl: string): (doc: seq<Tag>)
    ensures HasOgImage(doc) <==> imageUrl != ""
    ensures forall i :: 0 <= i < |doc| && IsOgImage(doc[i]) ==> doc[i].content == imageUrl && imageUrl != ""
    ensures forall i :: 0 <= i < |doc| && Target(doc[i]).Some? ==> Target(doc[i]) == Some(longUrl)
    ensures Refresh(longUrl) in doc && ScriptRedirect(longUrl) in doc
  {
    var head := [MetaCharset, MetaViewport, Title,
      OpenGraph(OgType, "website"), OpenGraph(OgTitle, "Перейти по ссылке"),
      OpenGraph(OgDescription, "Переход по короткой ссылке")];
    var image := if imageUrl != "" then [OpenGraph(OgImage, imageUrl)] else [];
    var doc := head + image + [Refresh(longUrl), ScriptRedirect(longUrl), Anchor(longUrl)];
    assert imageUrl != "" ==> IsOgImage(doc[|head|]);
    doc
  }

  /** Reply of `GET /:slug`. */
  datatype PageReply =
    | PassThrough                    // next(): left to static file serving
    | PageNotFound                   // 404 'Not found'
    | ServerError                    // 500, unreachable with a map-backed store
    | Page(doc: seq<Tag>)

  /** A path segment the route treats as a slug: non-empty and without a `.`. */
  predicate IsSlugPath(segment: string) {
    segment != "" && '.' !in segment
  }

  function ServePage(st: Store, segment: string): (r: PageReply)
    ensures r.PassThrough? <==> !IsSlugPath(segment)
    ensures r.PageNotFound? <==> IsSlugPath(segment) && !Exists(st, segment)
    ensures r.Page? ==> IsSlugPath(segment) && Exists(st, segment)
    ensures r.Page? ==>
      (HasOgImage(r.doc) <==> Truthy(st.links[segment].imageUrl))
    ensures r.Page? ==>
      Refresh(st.links[segment].longUrl) in r.doc &&
      ScriptRedirect(st.links[segment].longUrl) in r.doc
    ensures r.Page? ==> forall i :: 0 <= i < |r.doc| && Target(r.doc[i]).Some? ==>
      Target(r.doc[i]) == Some(st.links[segment].longUrl)
    ensures r.Page? ==> forall i :: 0 <= i < |r.doc| && IsOgImage(r.doc[i]) ==>
      Some(r.doc[i].content) == st.links[segment].imageUrl
    ensures !r.ServerError?
  {
    if !IsSlugPath(segment) then PassThrough
    else match Get(st, segment)
      case None => PageNotFound
      case Some(link) => Page(Render(link.longUrl, OrEmpty(link.imageUrl)))
  }

  /** A path with a dot is never looked up: the store's contents cannot change the answer. */
  lemma DottedPathsIgnoreStore(st1: Store, st2: Store, segment: string)
    requires '.' in segment
    ensures ServePage(st1, segment) == ServePage(st2, segment) == PassThrough
  {
  }
}

=== FILE: server_v1.dfy ===
/**
 * The first server (server.js:1-211): SQLite table `links(slug, longUrl,
 * imageUrl, createdAt)`, 6-hex-digit random slugs, and a `GET /:slug`
 * redirect page. A custom slug that is already taken is silently replaced
 * by a random one, and the long URL is stored as given.
 */
module ServerV1 {
  import opened Optional
  import opened Slugs
  import opened Generators
  import opened LinkStore
  import opened Allocation
  import opened Api
  import opened RedirectPage
  import opened Sessions

  datatype CreateReply =
    | Created(slug: string, imageUrl: Option<string>)   // { slug, imageUrl }
    | CreateFailed(failure: Failure)

  datatype CreateOutcome = CreateOutcome(reply: CreateReply, store: Store)

  /** What the handler has settled on before it writes: the slug and the row. */
  datatype Plan = Plan(slug: string, link: Link)

  /** Rows this server can have written. */
  predicate WellFormed(st: Store) {
    forall k :: k in st.links ==>
      && IsStoredSlug(k) && NoDoubleDash(k)
      && st.links[k].longUrl != ""
      && (st.links[k].imageUrl.None? || Truthy(st.links[k].imageUrl))
  }

  /**
   * The reading half of `POST /api/links`: require `longUrl`, normalise the
   * custom slug (`normalizeSlug(slug) || null`) and run `ensureUniqueSlug`.
   */
  function PlanCreate(st: Store, req: CreateRequest, draws: seq<HexDraw>, now: int): (r: Result<Plan, Failure>)
    ensures !Truthy(req.longUrl) ==> r == Err(LongUrlRequired)
    ensures r.Err? ==> r.error == LongUrlRequired || r.error == NoFreeDraw
    ensures r.Ok? ==> r.value.link == Link(req.longUrl.value, OrNull(req.imageUrl), now)
    ensures r.Ok? ==> !Exists(st, r.value.slug) && IsStoredSlug(r.value.slug) && NoDoubleDash(r.value.slug)
    ensures r.Ok? && CustomSlugV1(req.slug).Some? && !Exists(st, CustomSlugV1(req.slug).value) ==>
      r.value.slug == CustomSlugV1(req.slug).value
    ensures r.Ok? && Some(r.value.slug) != CustomSlugV1(req.slug) ==>
      |r.value.slug| == 6 && r.value.slug in HexSlugs(draws)
    ensures Truthy(req.longUrl) ==>
      && (r.Ok? <==> EnsureUniqueSlug(st, CustomSlugV1(req.slug), draws).Some?)
      && (r.Ok? ==> Some(r.value.slug) == EnsureUniqueSlug(st, CustomSlugV1(req.slug), draws))
  {
    if !Truthy(req.longUrl) then Err(LongUrlRequired)
    else
      var custom := CustomSlugV1(req.slug);
      match EnsureUniqueSlug(st, custom, draws)
      case None => Err(NoFreeDraw)
      case Some(slug) =>
        assert Some(slug) != custom ==> slug in HexSlugs(draws);
        Ok(Plan(slug, Link(req.longUrl.value, OrNull(req.imageUrl), now)))
  }

  /**
   * The writing half: the INSERT, against whatever the store holds by then.
   * A duplicate key (another request took the slug in between) is a 500.
   */
  function Commit(st: Store, plan: Plan): (r: CreateOutcome)
    ensures r.reply == CreateFailed(DbError) <==> Exists(st, plan.slug)
    ensures r.reply.Created? <==> !Exists(st, plan.slug)
    ensures r.reply.CreateFailed? ==> r.store == st
    ensures r.reply.Created? ==>
      && r.reply == Created(plan.slug, plan.link.imageUrl)
      && Get(r.store, plan.slug) == Some(plan.link)
      && r.store.links.Keys == st.links.Keys + {plan.slug}
    ensures Extends(st, r.store)
  {
    match Insert(st, plan.slug, plan.link)
    case DuplicateKey => CreateOutcome(CreateFailed(DbError), st)
    case Inserted(st') => CreateOutcome(Created(plan.slug, plan.link.imageUrl), st')
  }

  /** `POST /api/links`, run without interference between its check and its insert. */
  function CreateLink(st: Store, req: CreateRequest, draws: seq<HexDraw>, now: int): (r: CreateOutcome)
    ensures !Truthy(req.longUrl) ==> r == CreateOutcome(CreateFailed(LongUrlRequired), st)
    ensures Truthy(req.longUrl) ==> r.reply.Created? || r.reply == CreateFailed(NoFreeDraw)
    ensures r.reply.CreateFailed? ==> r.store == st
    ensures Extends(st, r.store)
    ensures r.reply.Created? ==>
      && !Exists(st, r.reply.slug)
      && IsStoredSlug(r.reply.slug)
      && r.reply.imageUrl == OrNull(req.imageUrl)
      && Get(r.store, r.reply.slug) == Some(Link(req.longUrl.value, OrNull(req.imageUrl), now))
      && r.store.links.Keys == st.links.Keys + {r.reply.slug}
    ensures WellFormed(st) ==> WellFormed(r.store)
  {
    match PlanCreate(st, req, draws, now)
    case Err(f) => CreateOutcome(CreateFailed(f), st)
    case Ok(plan) => Commit(st, plan)
  }

  /** A free custom slug is used as normalised. */
  lemma FreeCustomSlugIsUsed(st: Store, req: CreateRequest, draws: seq<HexDraw>, now: int)
    requires Truthy(req.longUrl)
    requires CustomSlugV1(req.slug).Some? && !Exists(st, CustomSlugV1(req.slug).value)
    ensures CreateLink(st, req, draws, now).reply == Created(CustomSlugV1(req.slug).value, OrNull(req.imageUrl))
  {
  }

  /**
   * A taken custom slug is silently replaced: the request still succeeds when a
   * draw is free, under a 6-hex-digit slug, and the existing row is untouched.
   */
  lemma TakenCustomSlugIsReplaced(st: Store, req: CreateRequest, draws: seq<HexDraw>, now: int)
    requires Truthy(req.longUrl)
    requires CustomSlugV1(req.slug).Some? && Exists(st, CustomSlugV1(req.slug).value)
    ensures var r := CreateLink(st, req, draws, now);
      && (r.reply.Created? <==> FirstFree(st, HexSlugs(draws)).Some?)
      && (r.reply.Created? ==> r.reply.slug != CustomSlugV1(req.slug).value && |r.reply.slug| == 6)
      && (r.reply.Created? ==> Some(r.reply.slug) == FirstFree(st, HexSlugs(draws)))
      && Get(r.store, CustomSlugV1(req.slug).value) == Get(st, CustomSlugV1(req.slug).value)
  {
  }

  /** Without a usable custom slug the first free random slug is taken. */
  lemma MissingCustomSlugDraws(st: Store, req: CreateRequest, draws: seq<HexDraw>, now: int)
    requires Truthy(req.longUrl)
    requires CustomSlugV1(req.slug).None?
    ensures var r := CreateLink(st, req, draws, now);
      && (r.reply.Created? <==> FirstFree(st, HexSlugs(draws)).Some?)
      && (r.reply.Created? ==> Some(r.reply.slug) == FirstFree(st, HexSlugs(draws)))
  {
  }

  /** If another request stores the planned slug before the insert, this one fails with a 500 and writes nothing. */
  lemma RaceLosesWithDbError(st: Store, other: Store, req: CreateRequest, draws: seq<HexDraw>, now: int)
    requires PlanCreate(st, req, draws, now).Ok?
    requires Exists(other, PlanCreate(st, req, draws, now).value.slug)
    ensures Commit(other, PlanCreate(st, req, draws, now).value) == CreateOutcome(CreateFailed(DbError), other)
  {
  }

  datatype LookupReply =
    | Found(longUrl: string, imageUrl: Option<string>)   // { longUrl, imageUrl }
    | LookupFailed(failure: Failure)

  /** `GET /api/links/:slug` */
  function GetLink(st: Store, slug: string): (r: LookupReply)
    ensures r.Found? <==> Exists(st, slug)
    ensures r.LookupFailed? ==> r.failure == NotFound
    ensures r.Found? ==> r.longUrl == st.links[slug].longUrl && r.imageUrl == OrNull(st.links[slug].imageUrl)
  {
    match Get(st, slug)
    case None => LookupFailed(NotFound)
    case Some(link) => Found(link.longUrl, OrNull(link.imageUrl))
  }

  /** What was created is what is read back: the long URL as sent, the image URL or `null`. */
  lemma CreateThenGet(st: Store, req: CreateRequest, draws: seq<HexDraw>, now: int)
    ensures var r := CreateLink(st, req, draws, now);
      r.reply.Created? ==> GetLink(r.store, r.reply.slug) == Found(req.longUrl.value, OrNull(req.imageUrl))
  {
  }

  /**
   * The created slug's redirect page goes to the long URL and carries an
   * `og:image` tag exactly when the request had a non-empty image URL.
   */
  lemma CreateThenPage(st: Store, req: CreateRequest, draws: seq<HexDraw>, now: int)
    ensures var r := CreateLink(st, req, draws, now);
      r.reply.Created? ==>
        var page := ServePage(r.store, r.reply.slug);
        && page.Page?
        && (HasOgImage(page.doc) <==> Truthy(req.imageUrl))
        && Refresh(req.longUrl.value) in page.doc
        && ScriptRedirect(req.longUrl.value) in page.doc
  {
    var r := CreateLink(st, req, draws, now);
    if r.reply.Created? {
      StoredSlugHasNoDot(r.reply.slug);
    }
  }

  /** An absent slug reads as 404 on both routes. */
  lemma AbsentSlugNotFound(st: Store, slug: string)
    requires !Exists(st, slug)
    ensures GetLink(st, slug) == LookupFailed(NotFound)
    ensures ServePage(st, slug) == (if IsSlugPath(slug) then PageNotFound else PassThrough)
  {
  }

  datatype CreateCall = CreateCall(req: CreateRequest, draws: seq<HexDraw>, now: int)

  /** One create request as a step from the store it is served against. */
  function CreateStep(st: Store, c: CreateCall): Step {
    var r := CreateLink(st, c.req, c.draws, c.now);
    Step(st, r.store, if r.reply.Created? then Some(r.reply.slug) else None)
  }

  /** A create keeps every row and reports only a slug it newly stored. */
  lemma CreateStepIsSound(st: Store, c: CreateCall)
    ensures CreateStep(st, c).before == st
    ensures SoundStep(CreateStep(st, c))
  {
  }

  /** A sequence of create requests served one after another. */
  function CreateAll(st: Store, calls: seq<CreateCall>): (steps: seq<Step>)
    ensures |steps| == |calls|
    ensures |steps| > 0 ==> steps[0].before == st
    ensures AllSound(steps) && Chained(steps)
    ensures Replays(steps, calls, CreateStep)
    decreases |calls|
  {
    if |calls| == 0 then []
    else
      var step := CreateStep(st, calls[0]);
      CreateStepIsSound(st, calls[0]);
      var rest := CreateAll(step.after, calls[1..]);
      ConsStep(step, rest);
      ReplaysCons(step, rest, calls, CreateStep);
      [step] + rest
  }

  /** Slugs handed out by successive creates are pairwise distinct, and earlier rows are never rewritten. */
  lemma CreatedSlugsUnique(st: Store, calls: seq<CreateCall>)
    ensures var steps := CreateAll(st, calls);
      && (forall i, j :: 0 <= i < j < |steps| && steps[i].created.Some? && steps[j].created.Some? ==>
            steps[i].created.value != steps[j].created.value)
      && (|steps| > 0 ==> Extends(st, steps[|steps| - 1].after))
  {
    CreatedSlugsDistinct(CreateAll(st, calls));
  }
}

=== FILE: server_v2.dfy ===
/**
 * The second server (server.js:213-356): better-sqlite3 table
 * `links(id, slug UNIQUE, long_url, created_at)`, scheme defaulting and URL
 * validation of the long URL, 8-character base-36 random slugs, and a
 * taken custom slug rejected with a conflict. Short URLs are `origin/#slug`.
 */
module ServerV2 {
  import opened Optional
  import opened Slugs
  import opened Generators
  import opened LinkStore
  import opened Allocation
  import opened Api
  import opened Urls
  import opened Sessions

  datatype CreateReply =
    | Created(slug: string, shortUrl: string, longUrl: string)   // { success, slug, shortUrl, longUrl }
    | CreateFailed(failure: Failure)

  datatype CreateOutcome = CreateOutcome(reply: CreateReply, store: Store)

  /** The slug and the processed long URL the handler has settled on before it writes. */
  datatype Plan = Plan(slug: string, longUrl: string)

  /** Rows this server can have written. */
  predicate WellFormed(st: Store) {
    forall k :: k in st.links ==>
      IsStoredSlug(k) && HasScheme(st.links[k].longUrl) && st.links[k].imageUrl.None?
  }

  /** `${req.protocol}://${req.get('host')}/#${slug}` with the first part given as `origin`. */
  function ShortUrl(origin: string, slug: string): (r: string)
    ensures |r| == |origin| + 2 + |slug|
    ensures r[..|origin|] == origin && r[|origin| + 2..] == slug
    ensures r[|origin|..|origin| + 2] == "/#"
  {
    origin + "/#" + slug
  }

  /**
   * The reading half of `POST /api/links`: require `longUrl`, default its
   * scheme, validate it with `validUrl` (the `new URL(...)` parser), then take
   * the custom slug if it is free or reject it, or draw a random one.
   */
  function PlanCreate(st: Store, req: CreateRequest, draws: seq<Base36Draw>, validUrl: string -> bool): (r: Result<Plan, Failure>)
    ensures !Truthy(req.longUrl) ==> r == Err(LongUrlRequired)
    ensures Truthy(req.longUrl) && !validUrl(DefaultScheme(req.longUrl.value)) ==> r == Err(InvalidLongUrl)
    ensures Truthy(req.longUrl) && validUrl(DefaultScheme(req.longUrl.value)) ==>
      match CustomSlugV2(req.slug)
      case Some(s) => r == (if Exists(st, s) then Err(SlugInUse) else Ok(Plan(s, DefaultScheme(req.longUrl.value))))
      case None => r.Ok? || r == Err(NoFreeDraw)
    ensures r.Err? ==> r.error == LongUrlRequired || r.error == InvalidLongUrl || r.error == SlugInUse || r.error == NoFreeDraw
    ensures r.Ok? ==> Truthy(req.longUrl)
    ensures r.Ok? ==> r.value.longUrl == DefaultScheme(req.longUrl.value) && validUrl(r.value.longUrl)
    ensures r.Ok? ==> !Exists(st, r.value.slug) && IsStoredSlug(r.value.slug)
    ensures r.Ok? && CustomSlugV2(req.slug).None? ==> |r.value.slug| == 8 && r.value.slug in Base36Slugs(draws)
    ensures r.Ok? && CustomSlugV2(req.slug).None? ==> RandomSlugV2(st, draws) == Some(r.value.slug)
    ensures r == Err(NoFreeDraw) ==> forall i :: 0 <= i < |draws| ==> Exists(st, Base36Slug(draws[i]))
  {
    if !Truthy(req.longUrl) then Err(LongUrlRequired)
    else
      var url := DefaultScheme(req.longUrl.value);
      if !validUrl(url) then Err(InvalidLongUrl)
      else match CustomSlugV2(req.slug)
        case Some(s) => if Exists(st, s) then Err(SlugInUse) else Ok(Plan(s, url))
        case None =>
          match RandomSlugV2(st, draws)
          case None => Err(NoFreeDraw)
          case Some(s) => Ok(Plan(s, url))
  }

  /**
   * The writing half: `insertLink.run(slug, url)`. The handler checks and
   * inserts without yielding, so the UNIQUE constraint can only fail when
   * another process sharing the database file stored the slug in between;
   * that failure is the same 400 as a taken custom slug.
   */
  function Commit(st: Store, plan: Plan, now: int, origin: string): (r: CreateOutcome)
    ensures r.reply == CreateFailed(SlugInUse) <==> Exists(st, plan.slug)
    ensures r.reply.Created? <==> !Exists(st, plan.slug)
    ensures r.reply.CreateFailed? ==> r.store == st
    ensures r.reply.Created? ==>
      && r.reply == Created(plan.slug, ShortUrl(origin, plan.slug), plan.longUrl)
      && Get(r.store, plan.slug) == Some(Link(plan.longUrl, None, now))
      && r.store.links.Keys == st.links.Keys + {plan.slug}
    ensures Extends(st, r.store)
  {
    match Insert(st, plan.slug, Link(plan.longUrl, None, now))
    case DuplicateKey => CreateOutcome(CreateFailed(SlugInUse), st)
    case Inserted(st') => CreateOutcome(Created(plan.slug, ShortUrl(origin, plan.slug), plan.longUrl), st')
  }

  /** `POST /api/links`, run without interference between its check and its insert. */
  function CreateLink(st: Store, req: CreateRequest, draws: seq<Base36Draw>, validUrl: string -> bool, now: int, origin: string): (r: CreateOutcome)
    ensures r.reply.CreateFailed? ==> r.store == st
    ensures Extends(st, r.store)
    ensures r.reply.Created? <==> PlanCreate(st, req, draws, validUrl).Ok?
    ensures r.reply.CreateFailed? ==> PlanCreate(st, req, draws, validUrl) == Err(r.reply.failure)
    ensures r.reply.Created? ==> r.reply.slug == PlanCreate(st, req, draws, validUrl).value.slug
    ensures r.reply.CreateFailed? ==> r.reply.failure != DbError && r.reply.failure != NotFound
    ensures r.reply.Created? ==>
      && !Exists(st, r.reply.slug)
      && IsStoredSlug(r.reply.slug)
      && Truthy(req.longUrl)
      && r.reply.longUrl == DefaultScheme(req.longUrl.value)
      && r.reply.shortUrl == ShortUrl(origin, r.reply.slug)
      && Get(r.store, r.reply.slug) == Some(Link(r.reply.longUrl, None, now))
      && r.store.links.Keys == st.links.Keys + {r.reply.slug}
    ensures WellFormed(st) ==> WellFormed(r.store)
  {
    var p := PlanCreate(st, req, draws, validUrl);
    if p.Err? then CreateOutcome(CreateFailed(p.error), st)
    else
      var r := Commit(st, p.value, now, origin);
      assert WellFormed(st) ==> WellFormed(r.store) by {
        if WellFormed(st) {
          AddRowKeepsWellFormed(st, r.store, p.value.slug);
        }
      }
      r
  }

  /** Adding one well-formed row to a well-formed store keeps it well-formed. */
  lemma AddRowKeepsWellFormed(st: Store, st': Store, slug: string)
    requires WellFormed(st) && Extends(st, st')
    requires st'.links.Keys == st.links.Keys + {slug}
    requires IsStoredSlug(slug) && HasScheme(st'.links[slug].longUrl) && st'.links[slug].imageUrl.None?
    ensures WellFormed(st')
  {
  }

  /**
   * Reusing a slug conflicts: once a create has stored slug `s`, any later
   * create whose custom slug normalises to `s` fails with `SlugInUse` and the
   * store, with the first long URL under `s`, stays as it was.
   */
  lemma ConflictOnReuse(st: Store, first: CreateRequest, second: CreateRequest,
                        draws1: seq<Base36Draw>, draws2: seq<Base36Draw>,
                        validUrl: string -> bool, now1: int, now2: int, origin: string)
    requires Truthy(second.longUrl) && validUrl(DefaultScheme(second.longUrl.value))
    requires var r1 := CreateLink(st, first, draws1, validUrl, now1, origin);
      r1.reply.Created? && CustomSlugV2(second.slug) == Some(r1.reply.slug)
    ensures var r1 := CreateLink(st, first, draws1, validUrl, now1, origin);
      var r2 := CreateLink(r1.store, second, draws2, validUrl, now2, origin);
      && r2 == CreateOutcome(CreateFailed(SlugInUse), r1.store)
      && Get(r2.store, r1.reply.slug).value.longUrl == DefaultScheme(first.longUrl.value)
  {
  }

  /**
   * If another process sharing the database stores the planned slug before
   * the insert, this request gets the conflict reply and writes nothing.
   */
  lemma RaceLosesWithConflict(st: Store, other: Store, req: CreateRequest, draws: seq<Base36Draw>,
                              validUrl: string -> bool, now: int, origin: string)
    requires PlanCreate(st, req, draws, validUrl).Ok?
    requires Exists(other, PlanCreate(st, req, draws, validUrl).value.slug)
    ensures Commit(other, PlanCreate(st, req, draws, validUrl).value, now, origin) == CreateOutcome(CreateFailed(SlugInUse), other)
  {
  }

  datatype LookupReply =
    | Found(slug: string, longUrl: string)   // { success, slug, longUrl }
    | LookupFailed(failure: Failure)

  /** `GET /api/links/:slug` */
  function GetLink(st: Store, slug: string): (r: LookupReply)
    ensures r.Found? <==> Exists(st, slug)
    ensures r.LookupFailed? ==> r.failure == NotFound
    ensures r.Found? ==> r.slug == slug && r.longUrl == st.links[slug].longUrl
  {
    match Get(st, slug)
    case None => LookupFailed(NotFound)
    case Some(link) => Found(slug, link.longUrl)
  }

  /** What was created is what is read back: the long URL after scheme defaulting. */
  lemma CreateThenGet(st: Store, req: CreateRequest, draws: seq<Base36Draw>, validUrl: string -> bool, now: int, origin: string)
    ensures var r := CreateLink(st, req, draws, validUrl, now, origin);
      r.reply.Created? ==>
        && GetLink(r.store, r.reply.slug) == Found(r.reply.slug, DefaultScheme(req.longUrl.value))
        && HasScheme(GetLink(r.store, r.reply.slug).longUrl)
  {
  }

  datatype CreateCall = CreateCall(req: CreateRequest, draws: seq<Base36Draw>, now: int)

  /** One create request as a step from the store it is served against. */
  function CreateStep(st: Store, c: CreateCall, validUrl: string -> bool, origin: string): Step {
    var r := CreateLink(st, c.req, c.draws, validUrl, c.now, origin);
    Step(st, r.store, if r.reply.Created? then Some(r.reply.slug) else None)
  }

  /** A create keeps every row and reports only a slug it newly stored. */
  lemma CreateStepIsSound(st: Store, c: CreateCall, validUrl: string -> bool, origin: string)
    ensures CreateStep(st, c, validUrl, origin).before == st
    ensures SoundStep(CreateStep(st, c, validUrl, origin))
  {
  }

  /** A sequence of create requests served one after another. */
  function CreateAll(st: Store, calls: seq<CreateCall>, validUrl: string -> bool, origin: string): (steps: seq<Step>)
    ensures |steps| == |calls|
    ensures |steps| > 0 ==> steps[0].before == st
    ensures AllSound(steps) && Chained(steps)
    ensures Replays(steps, calls, (s, c) => CreateStep(s, c, validUrl, origin))
    decreases |calls|
  {
    if |calls| == 0 then []
    else
      var step := CreateStep(st, calls[0], validUrl, origin);
      CreateStepIsSound(st, calls[0], validUrl, origin);
      var rest := CreateAll(step.after, calls[1..], validUrl, origin);
      ConsStep(step, rest);
      ReplaysCons(step, rest, calls, (s, c) => CreateStep(s, c, validUrl, origin));
      [step] + rest
  }

  /** Slugs handed out by successive creates are pairwise distinct, and earlier rows are never rewritten. */
  lemma CreatedSlugsUnique(st: Store, calls: seq<CreateCall>, validUrl: string -> bool, origin: string)
    ensures var steps := CreateAll(st, calls, validUrl, origin);
      && (forall i, j :: 0 <= i < j < |steps| && steps[i].created.Some? && steps[j].created.Some? ==>
            steps[i].created.value != steps[j].created.value)
      && (|steps| > 0 ==> Extends(st, steps[|steps| - 1].after))
  {
    CreatedSlugsDistinct(CreateAll(st, calls, validUrl, origin));
  }
}

=== FILE: sessions.dfy ===
/**
 * Sequences of create requests against one store. Each request is a step
 * from the store it saw to the store it left, reporting the slug it created,
 * if any. Steps that only add rows and only report slugs they added never
 * hand out the same slug twice.
 */
module Sessions {
  import opened Optional
  import opened LinkStore

  datatype Step = Step(before: Store, after: Store, created: Option<string>)

  /** The step kept every earlier row and, if it reports a slug, that slug is new and now stored. */
  predicate SoundStep(s: Step) {
    && Extends(s.before, s.after)
    && (s.created.Some? ==> !Exists(s.before, s.created.value) && Exists(s.after, s.created.value))
  }

  predicate AllSound(steps: seq<Step>) {
    forall i :: 0 <= i < |steps| ==> SoundStep(steps[i])
  }

  /** Each step starts from the store the previous one left. */
  predicate Chained(steps: seq<Step>) {
    forall i :: 0 < i < |steps| ==> steps[i].before == steps[i - 1].after
  }

  /** Step `i` is call `i` served by `next` against the store the step started from. */
  predicate Replays<C>(steps: seq<Step>, calls: seq<C>, next: (Store, C) -> Step) {
    && |steps| == |calls|
    && forall i :: 0 <= i < |steps| ==> steps[i] == next(steps[i].before, calls[i])
  }

  /** Serving the first call, then replaying the rest from where it ended, replays all calls. */
  lemma ReplaysCons<C>(step: Step, rest: seq<Step>, calls: seq<C>, next: (Store, C) -> Step)
    requires |calls| > 0 && step == next(step.before, calls[0])
    requires Replays(rest, calls[1..], next)
    ensures Replays([step] + rest, calls, next)
  {
    var steps := [step] + rest;
    forall i | 0 < i < |steps|
      ensures steps[i] == next(steps[i].before, calls[i])
    {
      assert steps[i] == rest[i - 1] && calls[i] == calls[1..][i - 1];
    }
  }

  /** A sound step followed by a sound run that starts where it ended is a sound run. */
  lemma ConsStep(step: Step, rest: seq<Step>)
    requires SoundStep(step) && AllSound(rest) && Chained(rest)
    requires |rest| > 0 ==> rest[0].before == step.after
    ensures AllSound([step] + rest) && Chained([step] + rest)
  {
    var steps := [step] + rest;
    forall i | 0 < i < |steps|
      ensures steps[i].before == steps[i - 1].after
    {
      assert steps[i] == rest[i - 1];
    }
  }

  /** Rows present before step `i` are still there, unchanged, after step `j`. */
  lemma {:induction false} ExtendsAlong(steps: seq<Step>, i: nat, j: nat)
    requires AllSound(steps) && Chained(steps)
    requires i <= j < |steps|
    ensures Extends(steps[i].before, steps[j].after)
    decreases j - i
  {
    assert SoundStep(steps[i]);
    if i < j {
      ExtendsAlong(steps, i + 1, j);
      assert steps[i + 1].before == steps[i].after;
      ExtendsTransitive(steps[i].before, steps[i].after, steps[j].after);
    }
  }

  /** No two steps report the same slug, and the first record for a slug is never replaced. */
  lemma CreatedSlugsDistinct(steps: seq<Step>)
    requires AllSound(steps) && Chained(steps)
    ensures forall i, j :: 0 <= i < j < |steps| && steps[i].created.Some? && steps[j].created.Some? ==>
      steps[i].created.value != steps[j].created.value
    ensures |steps| > 0 ==> Extends(steps[0].before, steps[|steps| - 1].after)
  {
    forall i, j | 0 <= i < j < |steps| && steps[i].created.Some? && steps[j].created.Some?
      ensures steps[i].created.value != steps[j].created.value
    {
      assert SoundStep(steps[i]) && SoundStep(steps[j]);
      assert steps[i + 1].before == steps[i].after;
      if i + 1 < j {
        ExtendsAlong(steps, i + 1, j - 1);
      }
      assert Extends(steps[i].after, steps[j].before);
    }
    if |steps| > 0 {
      ExtendsAlong(steps, 0, |steps| - 1);
    }
  }
}

=== FILE: slugs.dfy ===
/**
 * Slug normalisation. The first server's `normalizeSlug` trims, lower-cases,
 * deletes every character outside `[a-z0-9-]` and collapses runs of `-`;
 * the second server does the same inline but without the collapse.
 */
module Slugs {
  import opened Optional
  import opened Text

  predicate IsSlugChar(c: char) {
    'a' <= c <= 'z' || '0' <= c <= '9' || c == '-'
  }

  /** Every character is in `[a-z0-9-]`. */
  predicate SlugCharsOnly(s: string) {
    forall i :: 0 <= i < |s| ==> IsSlugChar(s[i])
  }

  /** No two adjacent `-`. */
  predicate NoDoubleDash(s: string) {
    forall i :: 0 < i < |s| ==> !(s[i - 1] == '-' && s[i] == '-')
  }

  /** A key the servers can put into the store: non-empty and over `[a-z0-9-]`. */
  predicate IsStoredSlug(s: string) {
    s != "" && SlugCharsOnly(s)
  }

  /** `s.replace(/[^a-z0-9-]/g, '')` */
  function KeepSlugChars(s: string): (r: string)
    ensures SlugCharsOnly(r)
    ensures |r| <= |s|
    ensures forall c :: c in r ==> c in s
    ensures SlugCharsOnly(s) ==> r == s
  {
    if |s| == 0 then []
    else
      var rest := KeepSlugChars(s[1..]);
      assert forall c :: c in rest ==> c in s;
      KeptSlug(s[0]) + rest
  }

  /** What one character contributes to the filter. */
  function KeptSlug(c: char): string {
    if IsSlugChar(c) then [c] else []
  }

  /** On one character the filter keeps it exactly when it is a slug character. */
  lemma KeepSlugCharsOfChar(c: char)
    ensures KeepSlugChars([c]) == if IsSlugChar(c) then [c] else []
  {
  }

  /**
   * The filter is an order-preserving deletion: it distributes over
   * concatenation, so on any string it keeps exactly the slug characters in order.
   */
  lemma {:induction false} KeepSlugCharsAppend(a: string, b: string)
    ensures KeepSlugChars(a + b) == KeepSlugChars(a) + KeepSlugChars(b)
    decreases |a|
  {
    if |a| == 0 {
      assert a + b == b;
    } else {
      var t := a[1..];
      assert (a + b)[0] == a[0];
      assert (a + b)[1..] == t + b;
      KeepSlugCharsAppend(t, b);
      assert KeepSlugChars(a + b) == KeptSlug(a[0]) + KeepSlugChars(t + b);
    }
  }

  /** Appending a character keeps a string free of `--` unless it puts a dash after a dash. */
  lemma AppendKeepsNoDoubleDash(r: string, c: char)
    requires NoDoubleDash(r)
    requires |r| > 0 && r[|r| - 1] == '-' ==> c != '-'
    ensures NoDoubleDash(r + [c])
  {
    var t := r + [c];
    forall i | 0 < i < |t|
      ensures !(t[i - 1] == '-' && t[i] == '-')
    {
      if i < |r| {
        assert t[i - 1] == r[i - 1] && t[i] == r[i];
      }
    }
  }

  lemma PrefixKeepsNoDoubleDash(s: string)
    requires |s| > 0
    ensures NoDoubleDash(s) ==> NoDoubleDash(s[..|s| - 1])
  {
    var p := s[..|s| - 1];
    assert forall i :: 0 <= i < |p| ==> p[i] == s[i];
  }

  /** `s.replace(/-+/g, '-')`, read left to right: a `-` right after a `-` is dropped. */
  function CollapseDashes(s: string): (r: string)
    ensures NoDoubleDash(r)
    ensures |r| <= |s|
    ensures |s| > 0 ==> |r| > 0 && r[|r| - 1] == s[|s| - 1]
    ensures SlugCharsOnly(s) ==> SlugCharsOnly(r)
    ensures NoDoubleDash(s) ==> r == s
    decreases |s|
  {
    if |s| == 0 then []
    else
      var p := s[..|s| - 1];
      var c := s[|s| - 1];
      var r := CollapseDashes(p);
      if |s| >= 2 && c == '-' && s[|s| - 2] == '-' then
        r
      else
        AppendKeepsNoDoubleDash(r, c);
        PrefixKeepsNoDoubleDash(s);
        assert p + [c] == s;
        assert SlugCharsOnly(s) ==> IsSlugChar(c) && SlugCharsOnly(p);
        r + [c]
  }

  /** The string with every `-` removed. */
  function Dashless(s: string): (r: string)
    ensures '-' !in r
  {
    if |s| == 0 then []
    else Dashless(s[..|s| - 1]) + (if s[|s| - 1] == '-' then [] else [s[|s| - 1]])
  }

  /** Collapsing runs of `-` only removes dashes: every other character survives, in order. */
  lemma {:induction false} CollapseKeepsNonDashes(s: string)
    ensures Dashless(CollapseDashes(s)) == Dashless(s)
    decreases |s|
  {
    if |s| > 0 {
      var p := s[..|s| - 1];
      var r := CollapseDashes(p);
      CollapseKeepsNonDashes(p);
      if !(|s| >= 2 && s[|s| - 1] == '-' && s[|s| - 2] == '-') {
        assert (r + [s[|s| - 1]])[..|r|] == r;
      }
    }
  }

  /** One step of the collapse: the last character is dropped exactly when it repeats a `-`. */
  lemma CollapseDashesUnfold(s: string)
    requires |s| > 0
    ensures CollapseDashes(s) ==
      if |s| >= 2 && s[|s| - 1] == '-' && s[|s| - 2] == '-' then CollapseDashes(s[..|s| - 1])
      else CollapseDashes(s[..|s| - 1]) + [s[|s| - 1]]
  {
  }

  /**
   * Together with `NoDoubleDash(s) ==> CollapseDashes(s) == s`, this pins the
   * collapse down: one more `-` in a run of dashes never changes the result,
   * so every run of `-` becomes a single `-`.
   */
  lemma {:induction false} CollapseIgnoresRepeatedDash(p: string, b: string)
    requires |p| > 0 && p[|p| - 1] == '-'
    ensures CollapseDashes(p + b) == CollapseDashes(p + "-" + b)
    decreases |b|
  {
    var s1 := p + b;
    var s2 := p + "-" + b;
    if |b| == 0 {
      assert s1 == p;
      assert s2[..|s2| - 1] == p;
      CollapseDashesUnfold(s2);
    } else {
      var b' := b[..|b| - 1];
      assert s1[..|s1| - 1] == p + b';
      assert s2[..|s2| - 1] == p + "-" + b';
      assert s1[|s1| - 1] == s2[|s2| - 1] == b[|b| - 1];
      assert s1[|s1| - 2] == s2[|s2| - 2];
      CollapseIgnoresRepeatedDash(p, b');
      CollapseDashesUnfold(s1);
      CollapseDashesUnfold(s2);
    }
  }

  lemma {:induction false} DashlessAppend(a: string, b: string)
    ensures Dashless(a + b) == Dashless(a) + Dashless(b)
    decreases |b|
  {
    if |b| == 0 {
      assert a + b == a;
    } else {
      var b' := b[..|b| - 1];
      assert (a + b)[..|a + b| - 1] == a + b';
      DashlessAppend(a, b');
    }
  }

  /**
   * Reference for both normalisations, one character at a time: keep the
   * lower-cased character when it is in `[a-z0-9-]`, drop it otherwise.
   */
  function LowerSlugChars(s: string): string {
    if |s| == 0 then [] else KeptLower(s[0]) + LowerSlugChars(s[1..])
  }

  /** What one input character contributes to the reference. */
  function KeptLower(c: char): string {
    var l := LowerChar(c);
    if IsSlugChar(l) then [l] else []
  }

  /** Reference for the letters and digits a slug keeps: lower-cased `[A-Za-z0-9]`, in order. */
  function AsciiAlnumLower(s: string): string {
    if |s| == 0 then []
    else
      var c := LowerChar(s[0]);
      (if 'a' <= c <= 'z' || '0' <= c <= '9' then [c] else []) + AsciiAlnumLower(s[1..])
  }

  lemma LowerSlugCharsCons(c: char, t: string)
    ensures LowerSlugChars([c] + t) == KeptLower(c) + LowerSlugChars(t)
  {
    assert ([c] + t)[1..] == t;
  }

  lemma {:induction false} LowerSlugCharsAppend(a: string, b: string)
    ensures LowerSlugChars(a + b) == LowerSlugChars(a) + LowerSlugChars(b)
    decreases |a|
  {
    if |a| == 0 {
      assert a + b == b;
    } else {
      var t := a[1..];
      assert a == [a[0]] + t;
      assert a + b == [a[0]] + (t + b);
      LowerSlugCharsAppend(t, b);
      LowerSlugCharsCons(a[0], t + b);
      LowerSlugCharsCons(a[0], t);
    }
  }

  /** Whitespace contributes nothing to a slug. */
  lemma {:induction false} LowerSlugCharsOfSpace(s: string)
    requires forall i :: 0 <= i < |s| ==> IsSpace(s[i])
    ensures LowerSlugChars(s) == []
    decreases |s|
  {
    if |s| > 0 {
      assert IsSpace(s[0]);
      LowerSlugCharsOfSpace(s[1..]);
    }
  }

  /** Lower-casing then filtering is the one-pass reference. */
  lemma {:induction false} KeepLowerIsLowerSlugChars(s: string)
    ensures KeepSlugChars(Lower(s)) == LowerSlugChars(s)
    decreases |s|
  {
    if |s| > 0 {
      var l := Lower(s);
      assert l[0] == LowerChar(s[0]);
      assert l[1..] == Lower(s[1..]);
      KeepLowerIsLowerSlugChars(s[1..]);
    }
  }

  /** Trimming first changes nothing: the trimmed whitespace is filtered out anyway. */
  lemma LowerSlugCharsIgnoresTrim(s: string)
    ensures LowerSlugChars(Trim(s)) == LowerSlugChars(s)
  {
    TrimIsInfix(s);
    var k := LeadingSpace(s);
    var t := Trim(s);
    var e := k + |t|;
    assert t == s[k..e];
    SplitAround(s, k, e);
    var pre, post := s[..k], s[e..];
    assert forall i :: 0 <= i < |post| ==> IsSpace(post[i]) by {
      forall i | 0 <= i < |post|
        ensures IsSpace(post[i])
      {
        assert post[i] == s[e + i];
      }
    }
    LowerSlugCharsOfPadded(pre, t, post);
  }

  lemma SplitAround(s: string, k: nat, e: nat)
    requires k <= e <= |s|
    ensures s == s[..k] + s[k..e] + s[e..]
  {
    assert s[..e] == s[..k] + s[k..e];
    assert s == s[..e] + s[e..];
  }

  /** Whitespace around a string contributes nothing. */
  lemma LowerSlugCharsOfPadded(pre: string, t: string, post: string)
    requires forall i :: 0 <= i < |pre| ==> IsSpace(pre[i])
    requires forall i :: 0 <= i < |post| ==> IsSpace(post[i])
    ensures LowerSlugChars(pre + t + post) == LowerSlugChars(t)
  {
    LowerSlugCharsOfSpace(pre);
    LowerSlugCharsOfSpace(post);
    LowerSlugCharsAppend(pre + t, post);
    LowerSlugCharsAppend(pre, t);
  }

  /** Erasing the dashes of the one-pass reference leaves the lower-cased letters and digits. */
  lemma {:induction false} DashlessLowerSlugChars(s: string)
    ensures Dashless(LowerSlugChars(s)) == AsciiAlnumLower(s)
    decreases |s|
  {
    if |s| > 0 {
      var c := LowerChar(s[0]);
      var head := KeptLower(s[0]);
      DashlessAppend(head, LowerSlugChars(s[1..]));
      DashlessLowerSlugChars(s[1..]);
      assert Dashless(head) == (if 'a' <= c <= 'z' || '0' <= c <= '9' then [c] else []) by {
        if IsSlugChar(c) {
          assert head[..0] == [];
        }
      }
    }
  }

  /** The part shared by both servers: `s.trim().toLowerCase().replace(/[^a-z0-9-]/g, '')`. */
  function CleanSlug(s: string): (r: string)
    ensures SlugCharsOnly(r)
    ensures r == LowerSlugChars(s)
  {
    KeepLowerIsLowerSlugChars(Trim(s));
    LowerSlugCharsIgnoresTrim(s);
    KeepSlugChars(Lower(Trim(s)))
  }

  /** A string already over `[a-z0-9-]` passes through the cleaning steps untouched. */
  lemma CleanSlugFixesSlugStrings(s: string)
    requires SlugCharsOnly(s)
    ensures CleanSlug(s) == s
  {
    assert Trimmed(s) by {
      if |s| > 0 {
        assert IsSlugChar(s[0]) && IsSlugChar(s[|s| - 1]);
      }
    }
    TrimOfTrimmed(s);
    assert Lower(s) == s;
  }

  /**
   * `normalizeSlug` of the first server: a falsy argument gives `null`,
   * otherwise the cleaned string with dash runs collapsed (possibly "").
   */
  function NormalizeSlug(slug: Option<string>): (r: Option<string>)
    ensures r.None? <==> !Truthy(slug)
    ensures r.Some? ==> SlugCharsOnly(r.value) && NoDoubleDash(r.value)
  {
    if !Truthy(slug) then None else Some(CollapseDashes(CleanSlug(slug.value)))
  }

  /** The inline normalisation of the second server: no dash collapsing. */
  function InlineSlug(slug: Option<string>): (r: Option<string>)
    ensures r.None? <==> !Truthy(slug)
    ensures r.Some? ==> SlugCharsOnly(r.value)
  {
    if !Truthy(slug) then None else Some(CleanSlug(slug.value))
  }

  /**
   * The custom slug a create request carries, once `|| null` has turned an
   * empty normalisation into "no slug": absent, or a stored-slug candidate.
   */
  function CustomSlugV1(slug: Option<string>): (r: Option<string>)
    ensures r.Some? ==> IsStoredSlug(r.value) && NoDoubleDash(r.value)
    ensures r.None? <==> (!Truthy(slug) || CleanSlug(slug.value) == "")
  {
    OrNull(NormalizeSlug(slug))
  }

  function CustomSlugV2(slug: Option<string>): (r: Option<string>)
    ensures r.Some? ==> IsStoredSlug(r.value)
    ensures r.None? <==> (!Truthy(slug) || CleanSlug(slug.value) == "")
  {
    OrNull(InlineSlug(slug))
  }

  /** Normalising a normalised slug changes nothing. */
  lemma NormalizeSlugIdempotent(slug: Option<string>)
    ensures var n := NormalizeSlug(slug);
      Truthy(n) ==> NormalizeSlug(n) == n
    ensures CustomSlugV1(CustomSlugV1(slug)) == CustomSlugV1(slug)
  {
    var n := NormalizeSlug(slug);
    if Truthy(n) {
      CleanSlugFixesSlugStrings(n.value);
    }
  }

  /** The second server's normalisation is idempotent on a non-empty result too. */
  lemma InlineSlugIdempotent(slug: Option<string>)
    ensures var n := InlineSlug(slug);
      Truthy(n) ==> InlineSlug(n) == n
    ensures CustomSlugV2(CustomSlugV2(slug)) == CustomSlugV2(slug)
  {
    var n := InlineSlug(slug);
    if Truthy(n) {
      CleanSlugFixesSlugStrings(n.value);
    }
  }

  /**
   * Neither normalisation is idempotent on a slug that cleans to nothing:
   * the first pass gives `""`, and the second pass turns that falsy `""` into null.
   */
  lemma EmptyCleaningIsNotFixed(slug: Option<string>)
    requires Truthy(slug) && CleanSlug(slug.value) == ""
    ensures NormalizeSlug(slug) == Some("") && NormalizeSlug(NormalizeSlug(slug)) == None
    ensures InlineSlug(slug) == Some("") && InlineSlug(InlineSlug(slug)) == None
  {
  }

  /** The two servers agree on every candidate that has no `--`, and differ only by the collapse otherwise. */
  lemma NormalizationsAgreeWithoutDoubleDash(slug: Option<string>)
    ensures NormalizeSlug(slug).Some? <==> InlineSlug(slug).Some?
    ensures InlineSlug(slug).Some? && NoDoubleDash(InlineSlug(slug).value) ==>
      NormalizeSlug(slug) == InlineSlug(slug)
    ensures InlineSlug(slug).Some? ==>
      Dashless(NormalizeSlug(slug).value) == Dashless(InlineSlug(slug).value)
  {
    if InlineSlug(slug).Some? {
      CollapseKeepsNonDashes(InlineSlug(slug).value);
    }
  }

  /**
   * What the normalisations compute: the second server's is the one-pass
   * reference, the first server's collapses its dashes, and with dashes
   * erased both are the lower-cased ASCII letters and digits of the input.
   */
  lemma NormalizationsMatchReference(slug: Option<string>)
    ensures Truthy(slug) ==>
      && InlineSlug(slug) == Some(LowerSlugChars(slug.value))
      && NormalizeSlug(slug) == Some(CollapseDashes(LowerSlugChars(slug.value)))
      && Dashless(InlineSlug(slug).value) == AsciiAlnumLower(slug.value)
      && Dashless(NormalizeSlug(slug).value) == AsciiAlnumLower(slug.value)
  {
    if Truthy(slug) {
      var s := slug.value;
      KeepLowerIsLowerSlugChars(Trim(s));
      LowerSlugCharsIgnoresTrim(s);
      assert CleanSlug(s) == LowerSlugChars(s);
      DashlessLowerSlugChars(s);
      CollapseKeepsNonDashes(LowerSlugChars(s));
    }
  }

  /** A non-empty string over `[a-z0-9-]` without `--` is its own first-server custom slug. */
  lemma NormalSlugIsFixed(t: string)
    requires IsStoredSlug(t) && NoDoubleDash(t)
    ensures CustomSlugV1(Some(t)) == Some(t)
  {
    CleanSlugFixesSlugStrings(t);
  }

  /** A non-empty string over `[a-z0-9-]` is its own second-server custom slug. */
  lemma StoredSlugIsFixed(t: string)
    requires IsStoredSlug(t)
    ensures CustomSlugV2(Some(t)) == Some(t)
  {
    CleanSlugFixesSlugStrings(t);
  }

  /** A stored slug never contains `.`, so the page route always treats it as a slug. */
  lemma StoredSlugHasNoDot(s: string)
    requires IsStoredSlug(s)
    ensures '.' !in s
  {
  }
}

=== FILE: text.dfy ===
/**
 * The JavaScript string primitives the server uses on user input:
 * `trim`, `toLowerCase` and `startsWith`, restricted to ASCII.
 */
module Text {

  /** ASCII whitespace removed by `String.prototype.trim`: space, tab, LF, VT, FF, CR. */
  predicate IsSpace(c: char) {
    c == ' ' || 9 <= c as int <= 13
  }

  predicate IsUpper(c: char) {
    'A' <= c <= 'Z'
  }

  /** ASCII case mapping of one character. */
  function LowerChar(c: char): (r: char)
    ensures !IsUpper(r)
    ensures !IsUpper(c) ==> r == c
    ensures IsUpper(c) ==> 'a' <= r <= 'z' && r as int - 'a' as int == c as int - 'A' as int
  {
    if IsUpper(c) then (c as int + 32) as char else c
  }

  /** True when `s` neither starts nor ends with whitespace. */
  predicate Trimmed(s: string) {
    |s| == 0 || (!IsSpace(s[0]) && !IsSpace(s[|s| - 1]))
  }

  /** Number of whitespace characters `s` starts with. */
  function LeadingSpace(s: string): (n: nat)
    ensures n <= |s|
    ensures forall i :: 0 <= i < n ==> IsSpace(s[i])
    ensures n < |s| ==> !IsSpace(s[n])
  {
    if |s| > 0 && IsSpace(s[0]) then
      var n := LeadingSpace(s[1..]);
      assert forall i :: 1 <= i < 1 + n ==> s[i] == s[1..][i - 1];
      1 + n
    else
      0
  }

  /** Length of `s` once its trailing whitespace is dropped. */
  function ContentEnd(s: string): (n: nat)
    ensures n <= |s|
    ensures forall i :: n <= i < |s| ==> IsSpace(s[i])
    ensures n > 0 ==> !IsSpace(s[n - 1])
  {
    if |s| > 0 && IsSpace(s[|s| - 1]) then
      var n := ContentEnd(s[..|s| - 1]);
      assert forall i :: n <= i < |s| - 1 ==> s[i] == s[..|s| - 1][i];
      n
    else
      |s|
  }

  /** `s.trim()`: the characters between the leading and the trailing whitespace. */
  function Trim(s: string): (r: string)
    ensures Trimmed(r)
    ensures |r| <= |s|
  {
    var a := LeadingSpace(s);
    var b := ContentEnd(s);
    if b <= a then [] else s[a..b]
  }

  /** Trim removes exactly a whitespace prefix and a whitespace suffix, keeping the middle intact. */
  lemma TrimIsInfix(s: string)
    ensures var k := LeadingSpace(s);
      && k + |Trim(s)| <= |s|
      && Trim(s) == s[k..k + |Trim(s)|]
      && (forall i :: 0 <= i < k ==> IsSpace(s[i]))
      && (forall i :: k + |Trim(s)| <= i < |s| ==> IsSpace(s[i]))
  {
  }

  /** A string with no whitespace at either end is its own trim. */
  lemma TrimOfTrimmed(s: string)
    requires Trimmed(s)
    ensures Trim(s) == s
  {
    if |s| > 0 {
      assert LeadingSpace(s) == 0;
      assert ContentEnd(s) == |s|;
      assert s[0..|s|] == s;
    }
  }

  /** `s.toLowerCase()` */
  function Lower(s: string): (r: string)
    ensures |r| == |s|
    ensures forall i :: 0 <= i < |r| ==> !IsUpper(r[i])
    ensures forall i :: 0 <= i < |s| && !IsUpper(s[i]) ==> r[i] == s[i]
    ensures forall i :: 0 <= i < |s| && IsUpper(s[i]) ==>
      'a' <= r[i] <= 'z' && r[i] as int - 'a' as int == s[i] as int - 'A' as int
  {
    seq(|s|, i requires 0 <= i < |s| => LowerChar(s[i]))
  }

  /** `s.startsWith(p)` */
  predicate StartsWith(s: string, p: string) {
    |p| <= |s| && s[..|p|] == p
  }

  /** `s.startsWith(p)` holds exactly when `s` is `p` followed by something. */
  lemma StartsWithMeansPrefix(s: string, p: string)
    ensures StartsWith(s, p) <==> exists t :: s == p + t
  {
    if StartsWith(s, p) {
      assert s == p + s[|p|..];
    }
  }
}

=== FILE: urls.dfy ===
/** Scheme defaulting of the long URL in the second server's create handler. */
module Urls {
  import opened Text

  const Http := "http://"
  const Https := "https://"

  /** Case-sensitive, as `startsWith` is: `HTTP://x` has no scheme here. */
  predicate HasScheme(u: string) {
    StartsWith(u, Http) || StartsWith(u, Https)
  }

  /**
   * Trim the URL and prepend `https://` unless it already starts with
   * `http://` or `https://`. The trimmed input always survives as the suffix.
   */
  function DefaultScheme(longUrl: string): (r: string)
    ensures HasScheme(r)
    ensures HasScheme(Trim(longUrl)) ==> r == Trim(longUrl)
    ensures |Trim(longUrl)| <= |r| && r[|r| - |Trim(longUrl)|..] == Trim(longUrl)
    ensures r == Trim(longUrl) || r == Https + Trim(longUrl)
  {
    var u := Trim(longUrl);
    if HasScheme(u) then u
    else
      var r := Https + u;
      assert r[..|Https|] == Https;
      r
  }

  /** Putting `https://` in front of a trimmed string leaves it trimmed. */
  lemma PrefixKeepsTrimmed(u: string)
    requires Trimmed(u)
    ensures Trimmed(Https + u)
  {
    var r := Https + u;
    assert r[0] == 'h';
    if |u| > 0 {
      assert r[|r| - 1] == u[|u| - 1];
    } else {
      assert r == Https;
    }
  }

  /** Defaulting an already defaulted URL changes nothing. */
  lemma DefaultSchemeIdempotent(longUrl: string)
    ensures DefaultScheme(DefaultScheme(longUrl)) == DefaultScheme(longUrl)
  {
    var u := Trim(longUrl);
    var r := DefaultScheme(longUrl);
    if r != u {
      PrefixKeepsTrimmed(u);
    }
    assert Trimmed(r);
    TrimOfTrimmed(r);
    assert Trim(r) == r;
  }

  /** A trimmed URL without a scheme gets exactly `https://` in front. */
  lemma DefaultSchemePrepends(u: string)
    requires Trimmed(u) && !HasScheme(u)
    ensures DefaultScheme(u) == Https + u
  {
    TrimOfTrimmed(u);
  }

  /** A bare host and path gets `https://`. */
  lemma DefaultSchemeExample()
    ensures DefaultScheme("example.com/x") == Https + "example.com/x"
  {
    ExampleUrlIsBare();
    DefaultSchemePrepends("example.com/x");
  }

  lemma ExampleUrlIsBare()
    ensures Trimmed("example.com/x") && !HasScheme("example.com/x")
  {
    var u := "example.com/x";
    assert u[0] == 'e' && u[|u| - 1] == 'x';
    assert u[..|Http|] != Http by { assert u[..|Http|][0] != Http[0]; }
    assert u[..|Https|] != Https by { assert u[..|Https|][0] != Https[0]; }
  }
}
